=== FILE: README.md ===
# Message relay between an SMS/MMS provider and a CRM — Dafny model

This project models the decision logic of a small web server that relays
text messages between the Tall Bob SMS/MMS gateway (the *provider*) and the
GoHighLevel CRM (the *CRM*):

- the provider client's phone-number normaliser `formatPhoneNumber`
  (`phone.dfy`, module `PhoneNumber`);
- the webhook router's three routes — the inbound-message webhook
  `/tallbob/incoming`, the delivery-receipt webhook `/tallbob/delivery` and the
  CRM-initiated relay send `/send-message` (`webhooks.dfy`, module `Webhooks`);
- the message controller's `sendAndSync` and `getStatus` (`message_controller.dfy`,
  module `MessageController`);
- the shared vocabulary of gateway calls, call traces and HTTP replies
  (`gateway.dfy`, module `Gateway`; `wrappers.dfy` holds `Option` and `Outcome`),
  and lemmas comparing the two outbound flows (`outbound.dfy`, module `Outbound`).

Every handler is a pure function. Its inputs are the request body (each
field an `Option<string>`, where JavaScript's falsy `undefined`/`null`/`""`
is `None` or `Some("")`, see `Gateway.Truthy`), the injected outcome of every
gateway call it may make (`Ok(value)` or `Err(message)`), and the clock
readings it takes. Its result is a `Handled` value: the HTTP reply (status and
JSON body) and the ordered trace of gateway calls it made, each with its
arguments and whether it resolved. Because the trace records failures, "no
call after a failed call" (`Gateway.HaltsAtFailure`) and "no CRM call"
(`Gateway.NoCrmCall`) can be stated for every handler.

The two outbound entry points handle the same request fields differently, and
the model keeps each as written:

- The relay route picks `sendMMS` when a media URL is given and `sendSMS`
  otherwise (its comment at `routes/webhooks.js:130` says so). `sendAndSync`
  always calls `sendMMS` (`controllers/message.controller.js:24`).
- The relay route wraps its CRM log in a `try` whose comment reads "Don't fail
  the main request if GHL logging fails" (`routes/webhooks.js:158-161`).
  `sendAndSync` has no such guard. A failed CRM log or campaign enrolment
  reaches its outer `catch` and the reply is a 500 even though the provider
  has already sent the message (`controllers/message.controller.js:32-46, 55-58`).
- The relay route rejects a request missing `to`, `from` or `message` with 400
  (`routes/webhooks.js:121-125`). `sendAndSync` validates nothing.
- `sendAndSync` reports `synced` from the presence of the two CRM ids alone
  (`controllers/message.controller.js:52`). On its 200 path this never
  overstates the CRM state, because a failed log turns the reply into a 500
  (`MessageController.SyncedMeansLogged`).
- `getStatus` answers every provider error, an unknown id included, with 500
  (`controllers/message.controller.js:81-84`).

Two policies are fixed in the code, and the code's own comments flag them as
provisional:

- The normaliser rewrites a single leading `0` to the Australian country code `61`.
  Its comment at `services/tallbob.service.js:88` warns that this assumes all
  local numbers are Australian.
- The inbound webhook uses the first location the CRM lists. When that location
  has no id, it acknowledges the event and does nothing else. Its comment at
  `routes/webhooks.js:35-36` says a production version would map provider
  numbers to locations.

## Model

| member | source | states |
|---|---|---|
| PhoneNumber.DigitsOnly | services/tallbob.service.js:79 | the extracted string holds only the characters `0`–`9` and is no longer than the input |
| PhoneNumber.DigitsOnlyAppend | services/tallbob.service.js:79 | digit extraction distributes over concatenation, so it keeps every digit, in input order |
| PhoneNumber.DigitsOnlyOfChar | services/tallbob.service.js:79 | a single character is kept exactly when it is a digit |
| PhoneNumber.DigitsOnlyOfDigits | services/tallbob.service.js:79 | a string of digits passes through digit extraction unchanged |
| PhoneNumber.DigitsOnlyLength | services/tallbob.service.js:79 | the extracted string is as long as the number of digits in the input |
| PhoneNumber.RemoveFirst | services/tallbob.service.js:96 | a string-pattern `replace` cuts out exactly the first occurrence of the character, at `IndexOf`, and changes nothing when it is absent |
| PhoneNumber.IndexOf | services/tallbob.service.js:96 | no position before the index holds the character, and the index holds it unless it is the length, which happens exactly when the character is absent |
| PhoneNumber.PlusNotInDigits | services/tallbob.service.js:95-96 | a digit string contains no `+`, so the final `+` removal is a no-op |
| PhoneNumber.FormatPhoneNumber | services/tallbob.service.js:77-99 | the output is digits only and never starts with `0`; with a leading `0` it is `61` followed by the rest of the digits, otherwise it is exactly the digits of the input |
| PhoneNumber.FormatIdempotent | services/tallbob.service.js:77-99 | normalising a normalised number changes nothing |
| PhoneNumber.FormatWithoutDigits | services/tallbob.service.js:79-98 | the normaliser is total: an input without digits, the empty string included, yields `""` |
| PhoneNumber.FormatLength | services/tallbob.service.js:86-90 | the output length is the digit count, plus one when a leading `0` became `61` |
| PhoneNumber.LocalNumberGainsCountryCode | services/tallbob.service.js:86-90 | for any digit string `d`, `"0" + d` normalises to `"61" + d` |
| PhoneNumber.InternationalNumberUnchanged | services/tallbob.service.js:79-98 | a digit string that does not start with `0` is returned unchanged |
| PhoneNumber.FormatLocalExample | services/tallbob.service.js:86-89 | `"0499000100"` normalises to `"61499000100"` |
| PhoneNumber.FormatInternationalExample | services/tallbob.service.js:72-73 | `"61499000100"` is already normal |
| PhoneNumber.FormatPunctuatedExample | services/tallbob.service.js:79 | `"+61 499"` normalises to `"61499"` |
| Gateway.OutboundLog | routes/webhooks.js:151-157 | the CRM record of a send is outbound, carries the provider's message id, and is MMS with the one media URL exactly when a media URL is given, SMS with no media otherwise |
| Webhooks.HandleIncoming | routes/webhooks.js:11-84 | always 200 with `received: true`; an `error` field exactly when processing threw, a timestamp otherwise, never both; a received message without a sender is answered with exactly the normaliser's error and no timestamp; each call's recorded result is that call's injected outcome, and each call is made once the one before it resolved, so the `error` field is absent exactly when every call the event needs resolves: a rejected lookup, upsert, conversation or append is never acknowledged as a success; other event types make no call; a missing sender makes no call; no call after a failed one; at most four calls, all to the CRM |
| Webhooks.IncomingCallOrder | routes/webhooks.js:33-39 | a received message with a sender always makes the location lookup, and only such an event makes any call; the lookup is the first call and is made once; no later call unless the first listed location has an id |
| Webhooks.IncomingContactKey | routes/webhooks.js:30-55 | the contact upsert receives the normalised sender, never the raw `from`, and the first location's id; the conversation is created for the returned contact in that location |
| Webhooks.IncomingAppendedMessage | routes/webhooks.js:58-64 | the appended message goes to the created conversation, is inbound, is MMS exactly when media is present and non-empty, and carries the event's text, media and receipt time |
| Webhooks.IncomingFullSync | routes/webhooks.js:19-74 | a received message with a located first location and all CRM calls resolving makes the four calls in order and is acknowledged with a timestamp |
| Webhooks.IncomingWithoutLocation | routes/webhooks.js:33-39 | with no id on the first location the webhook stops after listing locations and still acknowledges success |
| Webhooks.IncomingReportsFailure | routes/webhooks.js:76-83 | a rejected lookup, upsert, conversation creation or append puts that call's message in the acknowledgement's `error` field; the first rejection in call order is the one reported |
| Webhooks.HandleDelivery | routes/webhooks.js:89-103 | a delivery receipt is always acknowledged with 200 and `received: true`, with no error, no timestamp and no gateway call |
| Webhooks.DeliveryIgnoresReceipt | routes/webhooks.js:89-103 | the acknowledgement does not depend on the receipt's content: any two receipts get the same reply and trace |
| Webhooks.Decimal | routes/webhooks.js:136 | the clock part of the send reference is a non-empty digit string |
| Webhooks.DecimalRoundTrip | routes/webhooks.js:136 | reading the clock part of the reference back in decimal gives the clock reading |
| Webhooks.RelaySend | routes/webhooks.js:109-177 | a missing `to`, `from` or `message` gives 400 and no call; otherwise exactly one provider call comes first, `sendMMS` exactly when a media URL is given, with the caller's `to`, `from`, text and media URL and the reference `ghl_<contactId or unknown>_<clock>`; a provider failure gives 500 with `success: false` and no CRM call; after a successful send the reply is 200 with the provider's message id and `provider: 'Tall Bob'` whatever the CRM did; the CRM log is attempted exactly when the send succeeded and both CRM ids are present, and its recorded result is the CRM's outcome |
| MessageController.SendAndSync | controllers/message.controller.js:10-59 | exactly one provider call, always `sendMMS`, always first; CRM calls only after a successful send and only with both ids; the contact is enrolled exactly when asked for and after a resolved log; 200 exactly when the send and every CRM call the request asks for resolve, otherwise 500 with `success: false` and the rejecting call's message; on success the provider's message id and `provider: 'Tall Bob'` are relayed and `synced` is the presence of both ids |
| MessageController.SyncedMeansLogged | controllers/message.controller.js:32-53 | a 200 reply with `synced: true` implies a resolved CRM log call carrying the relayed message id |
| MessageController.UnsyncedWithoutIdentity | controllers/message.controller.js:31-53 | without both CRM ids a successful send is reported `synced: false` and makes no CRM call |
| MessageController.GetStatus | controllers/message.controller.js:64-85 | a missing message id gives 400 and no provider call; otherwise one status query, and on success the requested id is echoed with the provider's `status`, `deliveredAt` and record; a provider error gives 500 with a body carrying only its message |
| MessageController.GetStatusCodes | controllers/message.controller.js:64-85 | the status code is 400 exactly for a missing id, 200 exactly when the provider resolves, and 500 exactly when it rejects |
| Outbound.CrmFailurePolicies | routes/webhooks.js:149-168 | after a successful send a failed CRM log leaves the relay route's reply a success, and turns send-and-sync's into a 500 |
| Outbound.ProviderSelection | controllers/message.controller.js:24-29 | the relay route chooses MMS exactly when a media URL is given, send-and-sync always chooses MMS |
| Outbound.ProviderFailureIsFinal | controllers/message.controller.js:23-58 | once the provider rejects a send, the CRM outcomes have no influence on either outbound flow |

## Left out

- Server bootstrap (`index.js`): environment validation, client construction,
  middleware, the `/test/tallbob` smoke endpoint, the HTTPS/PEM loading and the
  HTTP redirect. These are framework wiring and file or network I/O.
- `routes/index.js` (health check, static fallback) and the React front end:
  framework wiring and UI.
- The provider client's constructor, Basic-auth header and logging interceptors
  (`services/tallbob.service.js:4-69`): foreign-library and I/O code. Its line 15
  fixes the credential in the code rather than reading it from the environment.
- The bodies of `sendSMS`, `sendMMS`, `getMessageStatus` and `createWebhook`: each is an
  opaque gateway call with an injected outcome, and the trace records the
  arguments the handler passes. The bodies diverge from what their callers
  pass. They overwrite the caller's `to`, `from` and, for MMS, the message text
  and media URL with fixed constants (`services/tallbob.service.js:113-118, 142-149`).
  `sendSMS` (`services/tallbob.service.js:111`) and `sendMMS` (`:140`) both read
  the text from `message`, but the relay route and `sendAndSync` pass it as
  `body` (`routes/webhooks.js:134, 142`, `controllers/message.controller.js:27`).
  `sendMMS` replaces the text with a constant anyway (`:144`), so the mismatch
  only loses the text of the relay route's SMS.
  `createWebhook` logs an undefined `url` (`services/tallbob.service.js:193`),
  so it throws before its request is sent.
- `testConnection`: a thin wrapper around one `sendSMS` call.
- The CRM service is not part of this model. Its location listing, contact
  upsert, conversation creation, message append and campaign enrolment are
  opaque calls. Their results are assumed well formed: the location listing
  resolves to an array (`locations[0]` at `routes/webhooks.js:37` would throw
  on `null` or `undefined`), and the upserted contact and the created
  conversation carry ids. Whether repeated delivery of one webhook creates
  duplicate contacts depends on that service's upsert and cannot be stated
  here.
- Provider results are assumed to be objects (`SendReceipt`, `MessageStatus`).
  A `null` result would make `result.messageId` (`routes/webhooks.js:166`) or
  `status.status` (`controllers/message.controller.js:76`) throw. In the relay
  route that would turn an already-sent message into a 500, and the model does
  not cover it.
- Clocks: `Date.now()` and `new Date().toISOString()` readings are inputs
  (`Webhooks.Clock`, `nowMillis`). Console logging has no functional effect and is
  dropped.
- `Webhooks.HandleIncoming`: a `from` field that is absent is modelled as the
  `TypeError` the normaliser throws on `undefined`. A `null` or non-string
  `from` throws with a differently worded message in JavaScript, and the model
  does not distinguish these. Request fields holding JSON numbers, booleans
  or objects where a string is expected are not modelled. `media` is absent or
  an array of strings.
- `MessageController.SendAndSync`: `addToCampaign` is modelled by its truthiness alone.
- `PhoneNumber.FormatPhoneNumber`: JavaScript strings are UTF-16 code units and
  Dafny's are Unicode scalar values. Both treat every non-ASCII character as a
  non-digit, so the outputs agree.

=== FILE: gateway.dfy ===
/** The vocabulary the relay handlers share: the gateway calls they can make
    (provider and CRM), the trace of calls a handler made, and the HTTP reply
    it sends. Gateway calls are opaque: a handler receives each call's outcome
    as an input and records the call, with its arguments, in its trace. */
module Gateway {
  import opened Wrappers

  /** JavaScript truthiness of an optional string field: absent and "" are falsy. */
  predicate Truthy(field: Option<string>) {
    field.Some? && field.value != ""
  }

  datatype MessageType = Sms | Mms

  datatype Direction = Inbound | Outbound

  /** The message object handed to the CRM's `addMessageToConversation`. */
  datatype CrmMessage = CrmMessage(
    body: Option<string>,
    messageType: MessageType,
    mediaUrls: Option<seq<string>>,
    direction: Direction,
    providerMessageId: Option<string>,
    date: Option<string>)

  /** The CRM record of an outbound send: MMS with the one media URL when a
      (truthy) `mediaUrl` was given, SMS with no media otherwise. */
  function OutboundLog(message: Option<string>, mediaUrl: Option<string>,
                       providerMessageId: Option<string>): (m: CrmMessage)
    ensures m.direction == Outbound && m.body == message && m.date == None
    ensures m.providerMessageId == providerMessageId
    ensures m.messageType == Mms <==> Truthy(mediaUrl)
    ensures m.mediaUrls.Some? && (Truthy(mediaUrl) ==> m.mediaUrls.value == [mediaUrl.value])
    ensures !Truthy(mediaUrl) ==> m.mediaUrls.value == []
  {
    if Truthy(mediaUrl) then
      CrmMessage(message, Mms, Some([mediaUrl.value]), Outbound, providerMessageId, None)
    else
      CrmMessage(message, Sms, Some([]), Outbound, providerMessageId, None)
  }

  /** One gateway call with the arguments it was given. */
  datatype Call =
    // provider
    | SendSms(to: Option<string>, from: Option<string>, body: Option<string>,
              reference: Option<string>)
    | SendMms(to: Option<string>, from: Option<string>, body: Option<string>,
              mediaUrl: Option<string>, reference: Option<string>)
    | GetMessageStatus(messageId: string)
    // CRM
    | GetLocations
    | UpsertContact(phone: string, lastIncomingMessage: Option<string>,
                    lastMessageDate: string, locationId: string)
    | CreateConversation(contactId: string, locationId: string, channel: string)
    | AddMessageToConversation(target: string, message: CrmMessage)
    | AddToCampaign(contactId: string, campaignId: string, locationId: string)
  {
    predicate IsProviderCall() {
      SendSms? || SendMms? || GetMessageStatus?
    }

    predicate IsCrmCall() {
      !IsProviderCall()
    }
  }

  /** A call made by a handler and whether it resolved (true) or rejected (false). */
  datatype Step = Step(call: Call, succeeded: bool)

  type Trace = seq<Step>

  /** The handler made no CRM call at all. */
  predicate NoCrmCall(t: Trace) {
    forall i :: 0 <= i < |t| ==> !t[i].call.IsCrmCall()
  }

  /** A rejected call is always the last call: nothing is attempted after a failure. */
  predicate HaltsAtFailure(t: Trace) {
    forall i :: 0 <= i < |t| - 1 ==> t[i].succeeded
  }

  predicate AllSucceeded(t: Trace) {
    forall i :: 0 <= i < |t| ==> t[i].succeeded
  }

  /** The number of provider calls in a trace. */
  function ProviderCalls(t: Trace): nat {
    if |t| == 0 then 0
    else (if t[0].call.IsProviderCall() then 1 else 0) + ProviderCalls(t[1..])
  }

  /** Counting provider calls distributes over concatenating traces. */
  lemma {:induction false} ProviderCallsAppend(a: Trace, b: Trace)
    ensures ProviderCalls(a + b) == ProviderCalls(a) + ProviderCalls(b)
  {
    if |a| == 0 {
      assert a + b == b;
    } else {
      assert (a + b)[1..] == a[1..] + b;
      ProviderCallsAppend(a[1..], b);
    }
  }

  /** The `provider` field of every successful send reply. */
  const ProviderName: string := "Tall Bob"

  /** The JSON body of a reply. */
  datatype Body =
    /** `{ received: true, timestamp?, error? }`: a webhook acknowledgement. */
    | Acknowledged(timestamp: Option<string>, diagnostic: Option<string>)
    /** `{ success: true, messageId, provider, synced? }`. */
    | Sent(messageId: Option<string>, synced: Option<bool>)
    /** `{ success: false, error }`. */
    | SendFailed(reason: string)
    /** `{ messageId, status, deliveredAt, details }`. */
    | StatusReport(id: string, status: Option<string>, deliveredAt: Option<string>,
                   details: MessageStatus)
    /** `{ error }`. */
    | Problem(message: string)
  {
    /** The JSON `received` field. */
    predicate Received() {
      Acknowledged?
    }

    /** The JSON `success` field. */
    function Success(): Option<bool> {
      if Sent? then Some(true) else if SendFailed? then Some(false) else None
    }

    /** The JSON `provider` field, present on every successful send. */
    function Provider(): Option<string> {
      if Sent? then Some(ProviderName) else None
    }

    /** The JSON `error` field. */
    function Error(): Option<string> {
      match this
      case Acknowledged(_, d) => d
      case SendFailed(r) => Some(r)
      case Problem(m) => Some(m)
      case _ => None
    }
  }

  /** What the provider returns for a send (`response.data`). */
  datatype SendReceipt = SendReceipt(messageId: Option<string>)

  /** What the provider returns for a status query; `payload` stands for the rest of the object. */
  datatype MessageStatus = MessageStatus(status: Option<string>, deliveredAt: Option<string>,
                                         payload: string)

  datatype Reply = Reply(status: nat, body: Body)

  /** A handler's result: the reply it sent and the calls it made, in order. */
  datatype Handled = Handled(reply: Reply, trace: Trace)
}

=== FILE: message_controller.dfy ===
/** The message controller: the send-and-sync endpoint and the status query.
    Unlike the relay route, send-and-sync performs no validation, always sends
    through the provider's MMS operation, and lets a CRM failure fail the whole
    request. */
module MessageController {
  import opened Wrappers
  import opened Gateway

  /** The body posted to the send-and-sync endpoint; `addToCampaign` is its truthiness. */
  datatype SyncRequest = SyncRequest(
    to: Option<string>,
    from: Option<string>,
    message: Option<string>,
    mediaUrl: Option<string>,
    locationId: Option<string>,
    contactId: Option<string>,
    addToCampaign: bool,
    campaignId: Option<string>)

  /** The outcomes of the provider send, the CRM log call and the campaign enrolment. */
  datatype SyncOutcomes = SyncOutcomes(
    send: Outcome<SendReceipt>,
    append: Outcome<()>,
    campaign: Outcome<()>)

  /** `!!(locationId && contactId)`: the request names a CRM contact to log against. */
  predicate HasCrmIdentity(req: SyncRequest) {
    Truthy(req.locationId) && Truthy(req.contactId)
  }

  predicate WantsCampaign(req: SyncRequest) {
    req.addToCampaign && Truthy(req.campaignId)
  }

  /** The one provider call: `sendMMS`, whether or not a media URL is given. */
  function SyncProviderCall(req: SyncRequest): Call {
    SendMms(req.to, req.from, req.message, req.mediaUrl, None)
  }

  /** The reply to any rejected call. */
  function Rejected(done: Trace, failed: Call, msg: string): (h: Handled)
    ensures h.reply == Reply(500, SendFailed(msg)) && h.trace == done + [Step(failed, false)]
    ensures !AllSucceeded(h.trace)
  {
    var t := done + [Step(failed, false)];
    assert !t[|done|].succeeded;
    Handled(Reply(500, SendFailed(msg)), t)
  }

  /** Send-and-sync: send through the provider, then, when the request names a CRM
      contact, log the message and optionally enrol the contact in a campaign.
      Any rejected call fails the request with 500. */
  function SendAndSync(req: SyncRequest, out: SyncOutcomes): (h: Handled)
    // exactly one provider call, always MMS, always first, with the caller's fields
    ensures |h.trace| > 0 && h.trace[0].call == SyncProviderCall(req)
    ensures h.trace[0].succeeded == out.send.Ok?
    ensures ProviderCalls(h.trace) == 1
    ensures HaltsAtFailure(h.trace)
    // a provider failure: 500 and no CRM call
    ensures out.send.Err? ==> h.reply == Reply(500, SendFailed(out.send.msg)) && NoCrmCall(h.trace)
    // success exactly when every call made succeeded; any failure is a 500
    ensures h.reply.status == 200 <==> AllSucceeded(h.trace)
    ensures h.reply.status != 200 ==> h.reply.status == 500 && h.reply.body.Success() == Some(false)
    // on success the provider's id is relayed and `synced` reflects the ids alone
    ensures h.reply.status == 200 ==>
      h.reply.body == Sent(out.send.value.messageId, Some(HasCrmIdentity(req)))
    ensures h.reply.status == 200 ==> h.reply.body.Provider() == Some(ProviderName)
    // CRM calls only after a successful send, and only with both ids
    ensures forall i :: 0 <= i < |h.trace| && h.trace[i].call.IsCrmCall() ==>
      0 < i && h.trace[0].succeeded && HasCrmIdentity(req)
    ensures out.send.Ok? && HasCrmIdentity(req) ==>
      |h.trace| > 1 && h.trace[1].call ==
        AddMessageToConversation(req.contactId.value,
          OutboundLog(req.message, req.mediaUrl, out.send.value.messageId))
    // campaign enrolment only when asked for, and only after a successful log
    ensures forall i :: 0 <= i < |h.trace| && h.trace[i].call.AddToCampaign? ==>
      i == 2 && WantsCampaign(req) && HasCrmIdentity(req) &&
      h.trace[1].call.AddMessageToConversation? &&
      h.trace[1].succeeded &&
      h.trace[i].call == AddToCampaign(req.contactId.value, req.campaignId.value,
                                       req.locationId.value)
    ensures |h.trace| <= 3
    // every CRM failure is fatal: 200 exactly when each call the request asks for resolves
    ensures h.reply.status == 200 <==>
      out.send.Ok? && (HasCrmIdentity(req) ==> out.append.Ok? && (WantsCampaign(req) ==> out.campaign.Ok?))
    ensures out.send.Ok? && HasCrmIdentity(req) ==> h.trace[1].succeeded == out.append.Ok?
    ensures out.send.Ok? && HasCrmIdentity(req) && out.append.Err? ==>
      h.reply == Reply(500, SendFailed(out.append.msg)) && |h.trace| == 2
    // the contact is enrolled exactly when asked for, after a resolved log
    ensures out.send.Ok? && HasCrmIdentity(req) && out.append.Ok? && WantsCampaign(req) ==>
      |h.trace| == 3 &&
      h.trace[2] == Step(AddToCampaign(req.contactId.value, req.campaignId.value, req.locationId.value),
                         out.campaign.Ok?)
    ensures out.send.Ok? && HasCrmIdentity(req) && out.append.Ok? && !WantsCampaign(req) ==>
      |h.trace| == 2
    ensures out.send.Ok? && HasCrmIdentity(req) && out.append.Ok? && WantsCampaign(req) &&
            out.campaign.Err? ==>
      h.reply == Reply(500, SendFailed(out.campaign.msg))
  {
    var send := SyncProviderCall(req);
    match out.send
    case Err(m) => Rejected([], send, m)
    case Ok(receipt) =>
      var sent := [Step(send, true)];
      if !HasCrmIdentity(req) then
        Handled(Reply(200, Sent(receipt.messageId, Some(false))), sent)
      else
        var crm := CrmStage(req, receipt, out);
        ProviderCallsAppend(sent, crm.trace);
        Handled(crm.reply, sent + crm.trace)
  }

  /** The CRM half of send-and-sync, once the send resolved with `receipt`: log the
      message, then enrol the contact when asked; the first rejection ends it with 500. */
  function CrmStage(req: SyncRequest, receipt: SendReceipt, out: SyncOutcomes): (h: Handled)
    requires HasCrmIdentity(req)
    ensures 1 <= |h.trace| <= 2 && ProviderCalls(h.trace) == 0
    ensures h.trace[0] ==
      Step(AddMessageToConversation(req.contactId.value,
                                    OutboundLog(req.message, req.mediaUrl, receipt.messageId)),
           out.append.Ok?)
    ensures |h.trace| == 2 <==> out.append.Ok? && WantsCampaign(req)
    ensures |h.trace| == 2 ==>
      h.trace[1] == Step(AddToCampaign(req.contactId.value, req.campaignId.value, req.locationId.value),
                         out.campaign.Ok?)
    ensures out.append.Err? ==> h.reply == Reply(500, SendFailed(out.append.msg))
    ensures out.append.Ok? && WantsCampaign(req) && out.campaign.Err? ==>
      h.reply == Reply(500, SendFailed(out.campaign.msg))
    ensures out.append.Ok? && (WantsCampaign(req) ==> out.campaign.Ok?) ==>
      h.reply == Reply(200, Sent(receipt.messageId, Some(true)))
  {
    var log := OutboundLog(req.message, req.mediaUrl, receipt.messageId);
    var append := AddMessageToConversation(req.contactId.value, log);
    match out.append
    case Err(m) => Rejected([], append, m)
    case Ok(_) =>
      if !WantsCampaign(req) then
        Handled(Reply(200, Sent(receipt.messageId, Some(true))), [Step(append, true)])
      else
        var enrol := AddToCampaign(req.contactId.value, req.campaignId.value, req.locationId.value);
        var t := [Step(append, true), Step(enrol, out.campaign.Ok?)];
        assert ProviderCalls(t) == 0 by {
          assert t[1..] == [t[1]];
          assert t[1..][1..] == [];
        }
        match out.campaign
        case Err(m) =>
          assert t == [Step(append, true)] + [Step(enrol, false)];
          Rejected([Step(append, true)], enrol, m)
        case Ok(_) => Handled(Reply(200, Sent(receipt.messageId, Some(true))), t)
  }

  const MissingMessageIdError: string := "Message ID is required"

  /** The status query: ask the provider for the status of one message id. */
  function GetStatus(messageId: Option<string>, out: Outcome<MessageStatus>): (h: Handled)
    // a missing id is a caller error and makes no provider call
    ensures !Truthy(messageId) <==> h.reply.status == 400
    ensures !Truthy(messageId) ==> h.trace == [] && h.reply.body == Problem(MissingMessageIdError)
    ensures Truthy(messageId) ==> h.trace == [Step(GetMessageStatus(messageId.value), out.Ok?)]
    // on success the requested id is echoed and the provider's fields copied
    ensures Truthy(messageId) && out.Ok? ==>
      h.reply.status == 200 && h.reply.body.StatusReport? &&
      h.reply.body.id == messageId.value &&
      h.reply.body.status == out.value.status &&
      h.reply.body.deliveredAt == out.value.deliveredAt &&
      h.reply.body.details == out.value
    // any provider error is a 500 carrying its message
    ensures Truthy(messageId) && out.Err? ==> h.reply == Reply(500, Problem(out.msg))
  {
    if !Truthy(messageId) then
      Handled(Reply(400, Problem(MissingMessageIdError)), [])
    else
      var query := GetMessageStatus(messageId.value);
      match out
      case Err(m) => Handled(Reply(500, Problem(m)), [Step(query, false)])
      case Ok(status) =>
        Handled(Reply(200, StatusReport(messageId.value, status.status, status.deliveredAt, status)),
                [Step(query, true)])
  }

  /** A success that reports `synced: true` did log the message in the CRM, with
      the provider's id: on this path `synced` cannot overstate the CRM's state. */
  lemma SyncedMeansLogged(req: SyncRequest, out: SyncOutcomes)
    ensures var h := SendAndSync(req, out);
      h.reply.status == 200 && h.reply.body.synced == Some(true) ==>
        exists i :: 0 <= i < |h.trace| && h.trace[i].succeeded &&
          h.trace[i].call.AddMessageToConversation? &&
          h.trace[i].call.message.providerMessageId == h.reply.body.messageId
  {
    var h := SendAndSync(req, out);
    if h.reply.status == 200 && h.reply.body.synced == Some(true) {
      assert h.trace[1].succeeded;
    }
  }

  /** With no CRM identity in the request the send is reported unsynced and no CRM call is made. */
  lemma UnsyncedWithoutIdentity(req: SyncRequest, out: SyncOutcomes)
    requires !HasCrmIdentity(req) && out.send.Ok?
    ensures var h := SendAndSync(req, out);
      h.reply == Reply(200, Sent(out.send.value.messageId, Some(false))) && NoCrmCall(h.trace)
  {
  }

  /** The status query answers with exactly one of three codes: 400 for a missing id,
      200 when the provider resolves, 500 when it rejects. */
  lemma GetStatusCodes(messageId: Option<string>, out: Outcome<MessageStatus>)
    ensures var code := GetStatus(messageId, out).reply.status;
      && (code == 400 <==> !Truthy(messageId))
      && (code == 200 <==> Truthy(messageId) && out.Ok?)
      && (code == 500 <==> Truthy(messageId) && out.Err?)
  {
  }
}

=== FILE: outbound.dfy ===
/** The two outbound flows side by side: the CRM-initiated relay send and the
    controller's send-and-sync accept the same message fields but apply
    different provider-selection and failure policies. */
module Outbound {
  import opened Wrappers
  import opened Gateway
  import Webhooks
  import MessageController

  /** The relay request carrying the same fields as a send-and-sync request. */
  function AsRelay(req: MessageController.SyncRequest): Webhooks.RelayRequest {
    Webhooks.RelayRequest(req.to, req.from, req.message, req.mediaUrl, req.locationId, req.contactId)
  }

  /** After a successful send, a failed CRM log is swallowed by the relay route
      (200, success) but fails send-and-sync (500, no success). */
  lemma CrmFailurePolicies(req: MessageController.SyncRequest, nowMillis: nat,
                           receipt: SendReceipt, crmError: string, campaign: Outcome<()>)
    requires Webhooks.HasRequiredFields(AsRelay(req)) && MessageController.HasCrmIdentity(req)
    ensures Webhooks.RelaySend(AsRelay(req), nowMillis,
                               Webhooks.RelayOutcomes(Ok(receipt), Err(crmError))).reply
            == Reply(200, Sent(receipt.messageId, None))
    ensures MessageController.SendAndSync(req,
              MessageController.SyncOutcomes(Ok(receipt), Err(crmError), campaign)).reply
            == Reply(500, SendFailed(crmError))
  {
  }

  /** Without a media URL the relay route sends an SMS while send-and-sync still sends an MMS. */
  lemma ProviderSelection(req: MessageController.SyncRequest, nowMillis: nat,
                          relayOut: Webhooks.RelayOutcomes, syncOut: MessageController.SyncOutcomes)
    requires Webhooks.HasRequiredFields(AsRelay(req))
    ensures Webhooks.RelaySend(AsRelay(req), nowMillis, relayOut).trace[0].call.SendMms?
            <==> Truthy(req.mediaUrl)
    ensures MessageController.SendAndSync(req, syncOut).trace[0].call.SendMms?
  {
  }

  /** Once the provider rejects a send, the CRM outcomes cannot influence either flow. */
  lemma ProviderFailureIsFinal(req: MessageController.SyncRequest, nowMillis: nat, msg: string,
                               append1: Outcome<()>, append2: Outcome<()>,
                               campaign1: Outcome<()>, campaign2: Outcome<()>)
    ensures Webhooks.RelaySend(AsRelay(req), nowMillis, Webhooks.RelayOutcomes(Err(msg), append1))
         == Webhooks.RelaySend(AsRelay(req), nowMillis, Webhooks.RelayOutcomes(Err(msg), append2))
    ensures MessageController.SendAndSync(req, MessageController.SyncOutcomes(Err(msg), append1, campaign1))
         == MessageController.SendAndSync(req, MessageController.SyncOutcomes(Err(msg), append2, campaign2))
  {
  }
}

=== FILE: phone.dfy ===
/** The phone-number normaliser of the provider client: it turns arbitrary
    phone-number text into the provider's dialable form (digits only, no `+`,
    local numbers rewritten to the Australian country code). */
module PhoneNumber {

  /** The country code that replaces a leading `0`; fixed in the source. */
  const DefaultCountryCode: string := "61"

  /** The characters the regular expression class `\d` matches (`\d` is `[0-9]` in JavaScript). */
  predicate IsDigit(c: char) {
    '0' <= c <= '9'
  }

  predicate AllDigits(s: string) {
    forall i :: 0 <= i < |s| ==> IsDigit(s[i])
  }

  /** An independent count of the digits in `s`. */
  function CountDigits(s: string): nat {
    if |s| == 0 then 0
    else (if IsDigit(s[0]) then 1 else 0) + CountDigits(s[1..])
  }

  /** `s.replace(/\D/g, '')`: every non-digit removed, the digits kept in order. */
  function DigitsOnly(s: string): (r: string)
    ensures AllDigits(r)
    ensures |r| <= |s|
  {
    if |s| == 0 then ""
    else if IsDigit(s[0]) then [s[0]] + DigitsOnly(s[1..])
    else DigitsOnly(s[1..])
  }

  /** The index of the first occurrence of `c` in `s`, or `|s|` when there is none. */
  function IndexOf(s: string, c: char): (k: nat)
    ensures k <= |s|
    ensures forall i :: 0 <= i < k ==> s[i] != c
    ensures k < |s| ==> s[k] == c
  {
    if |s| == 0 || s[0] == c then 0
    else 1 + IndexOf(s[1..], c)
  }

  /** `r` is `s` with its first `c` cut out, or `s` itself when there is no `c`. */
  predicate IsFirstCut(s: string, c: char, r: string) {
    && (IndexOf(s, c) < |s| ==> r == s[..IndexOf(s, c)] + s[IndexOf(s, c) + 1..])
    && (IndexOf(s, c) == |s| ==> r == s)
  }

  /** `s.replace(c, '')` with a string pattern: only the FIRST occurrence of `c` is removed. */
  function RemoveFirst(s: string, c: char): (r: string)
    ensures IsFirstCut(s, c, r)
    ensures c !in s ==> r == s
  {
    if |s| == 0 then ""
    else if s[0] == c then
      CutAtHead(s, c);
      s[1..]
    else
      var rest := RemoveFirst(s[1..], c);
      CutPastHead(s, c, rest);
      [s[0]] + rest
  }

  /** A leading `c` is the first one. */
  lemma CutAtHead(s: string, c: char)
    requires |s| > 0 && s[0] == c
    ensures IsFirstCut(s, c, s[1..])
  {
    assert s[..0] + s[1..] == s[1..];
  }

  /** Keeping a head that is not `c` in front of the tail with its first `c` cut out
      is cutting the first `c` out of the whole string. */
  lemma CutPastHead(s: string, c: char, rest: string)
    requires |s| > 0 && s[0] != c
    requires IsFirstCut(s[1..], c, rest)
    ensures IsFirstCut(s, c, [s[0]] + rest)
  {
    var j := IndexOf(s[1..], c);
    assert IndexOf(s, c) == j + 1;
    if j < |s| - 1 {
      assert s[..j + 1] == [s[0]] + s[1..][..j];
      assert s[j + 2..] == s[1..][j + 1..];
    } else {
      assert [s[0]] + s[1..] == s;
    }
  }

  predicate StartsWithZero(s: string) {
    |s| > 0 && s[0] == '0'
  }

  /** `formatPhoneNumber`: strip non-digits, rewrite a leading `0` to the default
      country code, then remove a `+` (which can no longer occur). */
  function FormatPhoneNumber(phone: string): (r: string)
    ensures AllDigits(r)
    ensures !StartsWithZero(r)
    ensures StartsWithZero(DigitsOnly(phone)) ==> r == DefaultCountryCode + DigitsOnly(phone)[1..]
    ensures !StartsWithZero(DigitsOnly(phone)) ==> r == DigitsOnly(phone)
  {
    var cleaned := DigitsOnly(phone);
    var local := if StartsWithZero(cleaned) then DefaultCountryCode + cleaned[1..] else cleaned;
    PlusNotInDigits(local);
    RemoveFirst(local, '+')
  }

  lemma PlusNotInDigits(s: string)
    requires AllDigits(s)
    ensures '+' !in s
  {
  }

  /** Digit extraction is the identity on digit strings. */
  lemma {:induction false} DigitsOnlyOfDigits(s: string)
    requires AllDigits(s)
    ensures DigitsOnly(s) == s
  {
    if |s| > 0 {
      assert AllDigits(s[1..]) by {
        forall i | 0 <= i < |s[1..]| ensures IsDigit(s[1..][i]) {
          assert s[1..][i] == s[i + 1];
        }
      }
      DigitsOnlyOfDigits(s[1..]);
      assert s == [s[0]] + s[1..];
    }
  }

  /** Digit extraction distributes over concatenation: together with
      `DigitsOnlyOfChar` this pins it down as "keep exactly the digits, in order". */
  lemma {:induction false} DigitsOnlyAppend(a: string, b: string)
    ensures DigitsOnly(a + b) == DigitsOnly(a) + DigitsOnly(b)
  {
    if |a| > 0 {
      assert (a + b)[0] == a[0];
      assert (a + b)[1..] == a[1..] + b;
      DigitsOnlyAppend(a[1..], b);
    } else {
      assert a + b == b;
    }
  }

  lemma DigitsOnlyOfChar(c: char)
    ensures DigitsOnly([c]) == if IsDigit(c) then [c] else []
  {
    assert [c][1..] == [];
  }

  /** The extracted string is exactly as long as the number of digits in the input. */
  lemma {:induction false} DigitsOnlyLength(s: string)
    ensures |DigitsOnly(s)| == CountDigits(s)
  {
    if |s| > 0 {
      DigitsOnlyLength(s[1..]);
    }
  }

  /** Normalisation is idempotent. */
  lemma FormatIdempotent(phone: string)
    ensures FormatPhoneNumber(FormatPhoneNumber(phone)) == FormatPhoneNumber(phone)
  {
    var r := FormatPhoneNumber(phone);
    DigitsOnlyOfDigits(r);
  }

  /** Normalisation is total and degrades to the empty string when there is no digit. */
  lemma {:induction false} FormatWithoutDigits(phone: string)
    requires forall i :: 0 <= i < |phone| ==> !IsDigit(phone[i])
    ensures FormatPhoneNumber(phone) == ""
  {
    NoDigitsExtractEmpty(phone);
  }

  lemma {:induction false} NoDigitsExtractEmpty(s: string)
    requires forall i :: 0 <= i < |s| ==> !IsDigit(s[i])
    ensures DigitsOnly(s) == ""
  {
    if |s| > 0 {
      assert forall i :: 0 <= i < |s[1..]| ==> s[1..][i] == s[i + 1];
      NoDigitsExtractEmpty(s[1..]);
    }
  }

  /** Output length: the digit count, plus one when a leading zero became "61". */
  lemma FormatLength(phone: string)
    ensures |FormatPhoneNumber(phone)| ==
      CountDigits(phone) + (if StartsWithZero(DigitsOnly(phone)) then 1 else 0)
  {
    DigitsOnlyLength(phone);
  }

  /** A local number (a `0` then digits) is rewritten to the international form. */
  lemma LocalNumberGainsCountryCode(national: string)
    requires AllDigits(national)
    ensures FormatPhoneNumber("0" + national) == DefaultCountryCode + national
  {
    var local := "0" + national;
    assert AllDigits(local);
    DigitsOnlyOfDigits(local);
    assert local[1..] == national;
  }

  /** A digit string that does not start with `0` is already in normal form. */
  lemma InternationalNumberUnchanged(digits: string)
    requires AllDigits(digits) && !StartsWithZero(digits)
    ensures FormatPhoneNumber(digits) == digits
  {
    DigitsOnlyOfDigits(digits);
  }

  /** A local mobile number gains the country code. */
  lemma FormatLocalExample(local: string)
    requires local == "0499000100"
    ensures FormatPhoneNumber(local) == "61499000100"
  {
    LocalExampleDigits(local);
    LocalNumberGainsCountryCode(local[1..]);
  }

  /** The string facts behind the local example: a `0`, then digits that follow `61`
      in the expected result. */
  lemma LocalExampleDigits(local: string)
    requires local == "0499000100"
    ensures local == "0" + local[1..] && AllDigits(local[1..])
    ensures DefaultCountryCode + local[1..] == "61499000100"
  {
    assert local[1..] == "499000100";
  }

  /** The documented example: an international number is left as it is. */
  lemma FormatInternationalExample(intl: string)
    requires intl == "61499000100"
    ensures FormatPhoneNumber(intl) == intl
  {
    InternationalNumberUnchanged(intl);
  }

  /** Punctuation and a leading `+` are dropped. */
  lemma FormatPunctuatedExample(raw: string)
    requires raw == "+61 499"
    ensures FormatPhoneNumber(raw) == "61499"
  {
    assert DigitsOnly(raw) == "61499" by {
      assert raw == "+61 " + "499";
      DigitsOnlyAppend("+61 ", "499");
      assert "+61 " == "+" + "61 ";
      DigitsOnlyAppend("+", "61 ");
      assert "61 " == "61" + " ";
      DigitsOnlyAppend("61", " ");
      DigitsOnlyOfChar('+');
      DigitsOnlyOfChar(' ');
      DigitsOnlyOfDigits("61");
      DigitsOnlyOfDigits("499");
    }
  }
}

=== FILE: webhooks.dfy ===
/** The three routes of the webhook router: the provider's inbound-message
    webhook, its delivery-receipt webhook, and the CRM-initiated relay send.
    Each route is a pure function of the request body, the injected outcome of
    every gateway call it may make, and the clock readings it takes. */
module Webhooks {
  import opened Wrappers
  import opened Gateway
  import PhoneNumber

  // ---------------------------------------------------------------- inbound

  /** The body the provider posts to the inbound webhook. */
  datatype InboundEvent = InboundEvent(
    eventType: Option<string>,
    from: Option<string>,
    to: Option<string>,
    body: Option<string>,
    media: Option<seq<string>>,
    receivedAt: Option<string>)

  /** A CRM location as listed by the CRM; its `id` may be missing. */
  datatype Location = Location(id: Option<string>)

  /** The outcomes of the CRM calls the inbound webhook can make: the location list,
      the upserted contact's id, and the created conversation's id. */
  datatype InboundOutcomes = InboundOutcomes(
    locations: Outcome<seq<Location>>,
    contact: Outcome<string>,
    conversation: Outcome<string>,
    append: Outcome<()>)

  /** The two `new Date().toISOString()` readings the inbound webhook takes: one
      for the contact's `last_message_date` field, one for the acknowledgement. */
  datatype Clock = Clock(contactStamp: string, ackStamp: string)

  /** The error `formatPhoneNumber` throws when the event carries no `from`. */
  const MissingSenderError: string := "Cannot read properties of undefined (reading 'replace')"

  /** The conversation channel requested for every inbound sender. */
  const ConversationChannel: string := "SMS"

  /** Only these two event types are projected into the CRM. */
  predicate IsMessageReceived(eventType: Option<string>) {
    eventType == Some("message_received_sms") || eventType == Some("message_received_mms")
  }

  /** `mediaUrls && mediaUrls.length > 0`. */
  predicate HasMedia(media: Option<seq<string>>) {
    media.Some? && |media.value| > 0
  }

  /** `locations[0]?.id`. */
  function FirstLocationId(locations: seq<Location>): Option<string> {
    if |locations| == 0 then None else locations[0].id
  }

  /** The acknowledgement of the success path, which carries a timestamp. */
  function Acked(t: Trace, clock: Clock): Handled {
    Handled(Reply(200, Acknowledged(Some(clock.ackStamp), None)), t)
  }

  /** The acknowledgement sent when processing threw: still 200, with the error message. */
  function Diagnosed(t: Trace, msg: string): Handled {
    Handled(Reply(200, Acknowledged(None, Some(msg))), t)
  }

  /** The acknowledgement after the call `failed` rejected with `msg`, once `done` had succeeded. */
  function Failed(done: Trace, failed: Call, msg: string): (h: Handled)
    ensures h.trace == done + [Step(failed, false)] && !AllSucceeded(h.trace)
  {
    var t := done + [Step(failed, false)];
    assert !t[|done|].succeeded;
    Diagnosed(t, msg)
  }

  /** What every inbound acknowledgement satisfies: 200 and `received: true`, an
      `error` field exactly when a call rejected and a timestamp otherwise (never
      both), no call after a rejected one, and only CRM calls. */
  predicate AcknowledgesTrace(h: Handled, clock: Clock) {
    && h.reply.status == 200 && h.reply.body.Received()
    && (h.reply.body.diagnostic.None? <==> AllSucceeded(h.trace))
    && (h.reply.body.diagnostic.None? <==> h.reply.body.timestamp == Some(clock.ackStamp))
    && (h.reply.body.diagnostic.Some? ==> h.reply.body.timestamp.None?)
    && HaltsAtFailure(h.trace)
    && (forall i :: 0 <= i < |h.trace| ==> h.trace[i].call.IsCrmCall())
  }

  /** A resolved call followed by the rest of the saga. */
  function Then(call: Call, rest: Handled, clock: Clock): (h: Handled)
    requires call.IsCrmCall() && AcknowledgesTrace(rest, clock)
    ensures AcknowledgesTrace(h, clock)
    ensures h.trace == [Step(call, true)] + rest.trace
  {
    var t := [Step(call, true)] + rest.trace;
    assert forall i :: 1 <= i < |t| ==> t[i] == rest.trace[i - 1];
    assert AllSucceeded(t) <==> AllSucceeded(rest.trace) by {
      if AllSucceeded(rest.trace) {
        forall i | 0 <= i < |t| ensures t[i].succeeded {
          if i > 0 { assert t[i] == rest.trace[i - 1]; }
        }
      }
      if AllSucceeded(t) {
        forall i | 0 <= i < |rest.trace| ensures rest.trace[i].succeeded {
          assert t[i + 1] == rest.trace[i];
        }
      }
    }
    assert HaltsAtFailure(t) by {
      forall i | 0 <= i < |t| - 1 ensures t[i].succeeded {
        if i > 0 { assert t[i] == rest.trace[i - 1]; }
      }
    }
    Handled(rest.reply, t)
  }

  /** The last inbound step: append the message to the conversation. */
  function AppendStage(event: InboundEvent, conversationId: string, clock: Clock,
                       out: InboundOutcomes): (h: Handled)
    ensures AcknowledgesTrace(h, clock) && |h.trace| == 1
    ensures h.trace[0].call.AddMessageToConversation?
    ensures h.trace[0].call.target == conversationId
    ensures h.trace[0].call.message.direction == Inbound
    ensures h.trace[0].call.message.messageType == Mms <==> HasMedia(event.media)
    ensures h.trace[0].call.message.body == event.body
    ensures h.trace[0].call.message.mediaUrls == event.media
    ensures h.trace[0].call.message.date == event.receivedAt
    ensures h.trace[0].succeeded == out.append.Ok?
    ensures out.append.Err? ==> h.reply.body.diagnostic == Some(out.append.msg)
  {
    var message := CrmMessage(event.body, if HasMedia(event.media) then Mms else Sms,
                              event.media, Inbound, None, event.receivedAt);
    var append := AddMessageToConversation(conversationId, message);
    match out.append
    case Err(m) => Failed([], append, m)
    case Ok(_) => Acked([Step(append, true)], clock)
  }

  /** Create (or reuse) the SMS conversation of the contact, then append. */
  function ConversationStage(event: InboundEvent, contactId: string, locationId: string,
                             clock: Clock, out: InboundOutcomes): (h: Handled)
    ensures AcknowledgesTrace(h, clock) && 1 <= |h.trace| <= 2
    ensures h.trace[0].call == CreateConversation(contactId, locationId, ConversationChannel)
    ensures h.trace[0].succeeded == out.conversation.Ok?
    ensures out.conversation.Err? ==> h.reply.body.diagnostic == Some(out.conversation.msg)
    ensures out.conversation.Ok? ==> |h.trace| == 2 && h.trace[1].succeeded == out.append.Ok?
    ensures |h.trace| > 1 ==>
      out.conversation.Ok? && h.trace[1..] == AppendStage(event, out.conversation.value, clock, out).trace
  {
    var create := CreateConversation(contactId, locationId, ConversationChannel);
    match out.conversation
    case Err(m) => Failed([], create, m)
    case Ok(conversationId) => Then(create, AppendStage(event, conversationId, clock, out), clock)
  }

  /** Upsert the contact under the normalised sender, then continue with its conversation. */
  function ContactStage(event: InboundEvent, phone: string, locationId: string,
                        clock: Clock, out: InboundOutcomes): (h: Handled)
    ensures AcknowledgesTrace(h, clock) && 1 <= |h.trace| <= 3
    ensures forall i :: 0 <= i < |h.trace| ==> !h.trace[i].call.GetLocations?
    ensures h.trace[0].call == UpsertContact(phone, event.body, clock.contactStamp, locationId)
    ensures h.trace[0].succeeded == out.contact.Ok?
    ensures out.contact.Err? ==> h.reply.body.diagnostic == Some(out.contact.msg)
    ensures out.contact.Ok? ==> |h.trace| >= 2 && h.trace[1].succeeded == out.conversation.Ok?
    ensures out.contact.Ok? && out.conversation.Ok? ==> |h.trace| == 3 && h.trace[2].succeeded == out.append.Ok?
    ensures |h.trace| > 1 ==>
      out.contact.Ok? &&
      h.trace[1..] == ConversationStage(event, out.contact.value, locationId, clock, out).trace
  {
    var upsert := UpsertContact(phone, event.body, clock.contactStamp, locationId);
    match out.contact
    case Err(m) => Failed([], upsert, m)
    case Ok(contactId) => Then(upsert, ConversationStage(event, contactId, locationId, clock, out), clock)
  }

  /** The inbound-message webhook: for a received SMS/MMS, normalise the sender,
      take the first CRM location, upsert the contact, create a conversation and
      append the message; acknowledge with 200 whatever happens. */
  function HandleIncoming(event: InboundEvent, clock: Clock, out: InboundOutcomes): (h: Handled)
    // the provider always sees success
    ensures h.reply.status == 200 && h.reply.body.Received()
    // a diagnostic is present exactly when processing threw
    ensures h.reply.body.diagnostic.None? <==>
      AllSucceeded(h.trace) && !(IsMessageReceived(event.eventType) && event.from.None?)
    ensures h.reply.body.diagnostic.None? <==> h.reply.body.timestamp == Some(clock.ackStamp)
    // the error reply of the `catch` carries no timestamp
    ensures h.reply.body.diagnostic.Some? ==> h.reply.body.timestamp.None?
    // a missing sender makes normalisation throw before any CRM call
    ensures IsMessageReceived(event.eventType) && event.from.None? ==>
      h.reply == Reply(200, Acknowledged(None, Some(MissingSenderError)))
    ensures HaltsAtFailure(h.trace)
    ensures forall i :: 0 <= i < |h.trace| ==> h.trace[i].call.IsCrmCall()
    // other event types are acknowledged without any CRM call
    ensures !IsMessageReceived(event.eventType) ==> h.trace == []
    ensures |h.trace| > 0 ==> IsMessageReceived(event.eventType) && event.from.Some?
    ensures |h.trace| <= 4
    // each step's flag is the outcome of that call: a rejected call is never acknowledged as resolved
    ensures |h.trace| >= 1 ==> h.trace[0].succeeded == out.locations.Ok?
    ensures |h.trace| >= 2 ==> h.trace[1].succeeded == out.contact.Ok?
    ensures |h.trace| >= 3 ==> h.trace[2].succeeded == out.conversation.Ok?
    ensures |h.trace| >= 4 ==> h.trace[3].succeeded == out.append.Ok?
    // each call is made once the one before it resolved, so no rejection goes unreported
    ensures IsMessageReceived(event.eventType) && event.from.Some? ==> |h.trace| >= 1
    ensures |h.trace| >= 1 && out.locations.Ok? && Truthy(FirstLocationId(out.locations.value)) ==>
      |h.trace| >= 2
    ensures |h.trace| >= 2 && out.contact.Ok? ==> |h.trace| >= 3
    ensures |h.trace| >= 3 && out.conversation.Ok? ==> |h.trace| == 4
    ensures h.reply.body.diagnostic.None? <==>
      !IsMessageReceived(event.eventType) ||
      (event.from.Some? && out.locations.Ok? &&
       (Truthy(FirstLocationId(out.locations.value)) ==>
          out.contact.Ok? && out.conversation.Ok? && out.append.Ok?))
  {
    if !IsMessageReceived(event.eventType) then
      Acked([], clock)
    else if event.from.None? then
      Diagnosed([], MissingSenderError)
    else
      match out.locations
      case Err(m) => Failed([], GetLocations, m)
      case Ok(locations) =>
        var locationId := FirstLocationId(locations);
        if !Truthy(locationId) then
          Acked([Step(GetLocations, true)], clock)
        else
          var phone := PhoneNumber.FormatPhoneNumber(event.from.value);
          Then(GetLocations, ContactStage(event, phone, locationId.value, clock, out), clock)
  }

  /** The CRM calls of the inbound webhook: a received message with a sender always
      starts with the location lookup, made only once, and nothing follows it unless
      the first location has an id. */
  lemma IncomingCallOrder(event: InboundEvent, clock: Clock, out: InboundOutcomes)
    ensures var t := HandleIncoming(event, clock, out).trace;
      && (IsMessageReceived(event.eventType) && event.from.Some? <==> |t| > 0)
      && (|t| > 0 ==> t[0].call == GetLocations)
      && (forall i :: 1 <= i < |t| ==> t[i].call != GetLocations)
      && (|t| > 1 ==> out.locations.Ok? && Truthy(FirstLocationId(out.locations.value)))
  {
    var t := HandleIncoming(event, clock, out).trace;
    if |t| > 1 {
      var contact := ContactStage(event, PhoneNumber.FormatPhoneNumber(event.from.value),
                                  FirstLocationId(out.locations.value).value, clock, out);
      assert t == [Step(GetLocations, true)] + contact.trace;
    }
  }

  /** The contact is upserted under the normalised sender in the first location, and
      the conversation is created for the contact the upsert returned. */
  lemma IncomingContactKey(event: InboundEvent, clock: Clock, out: InboundOutcomes)
    ensures var t := HandleIncoming(event, clock, out).trace;
      |t| > 1 ==>
        && event.from.Some?
        && t[1].call == UpsertContact(PhoneNumber.FormatPhoneNumber(event.from.value), event.body,
                                      clock.contactStamp, FirstLocationId(out.locations.value).value)
    ensures var t := HandleIncoming(event, clock, out).trace;
      |t| > 2 ==>
        && out.contact.Ok?
        && t[2].call == CreateConversation(out.contact.value, FirstLocationId(out.locations.value).value,
                                           ConversationChannel)
  {
    var t := HandleIncoming(event, clock, out).trace;
    if |t| > 1 {
      var location := FirstLocationId(out.locations.value).value;
      var contact := ContactStage(event, PhoneNumber.FormatPhoneNumber(event.from.value),
                                  location, clock, out);
      assert t == [Step(GetLocations, true)] + contact.trace;
      if |t| > 2 {
        assert t[2..] == ConversationStage(event, out.contact.value, location, clock, out).trace;
      }
    }
  }

  /** The message appended to the conversation is inbound, MMS exactly when media is
      present and non-empty, and carries the event's text, media and receipt time. */
  lemma IncomingAppendedMessage(event: InboundEvent, clock: Clock, out: InboundOutcomes)
    ensures var t := HandleIncoming(event, clock, out).trace;
      |t| > 3 ==>
        && out.conversation.Ok?
        && t[3].call.AddMessageToConversation?
        && t[3].call.target == out.conversation.value
        && t[3].call.message.direction == Inbound
        && (t[3].call.message.messageType == Mms <==> HasMedia(event.media))
        && t[3].call.message.body == event.body
        && t[3].call.message.mediaUrls == event.media
        && t[3].call.message.date == event.receivedAt
  {
    var t := HandleIncoming(event, clock, out).trace;
    if |t| > 3 {
      var location := FirstLocationId(out.locations.value).value;
      var contact := ContactStage(event, PhoneNumber.FormatPhoneNumber(event.from.value),
                                  location, clock, out);
      assert t == [Step(GetLocations, true)] + contact.trace;
      var conversation := ConversationStage(event, out.contact.value, location, clock, out);
      assert t[2..] == conversation.trace;
      assert t[3..] == AppendStage(event, out.conversation.value, clock, out).trace;
    }
  }

  /** A received message from a known sender, with a first location and every CRM call
      resolving, makes all four calls in order and is acknowledged with a timestamp. */
  lemma IncomingFullSync(event: InboundEvent, clock: Clock, out: InboundOutcomes)
    requires IsMessageReceived(event.eventType) && event.from.Some?
    requires out.locations.Ok? && Truthy(FirstLocationId(out.locations.value))
    requires out.contact.Ok? && out.conversation.Ok? && out.append.Ok?
    ensures var h := HandleIncoming(event, clock, out);
      && |h.trace| == 4 && AllSucceeded(h.trace)
      && h.trace[1].call.UpsertContact? && h.trace[2].call.CreateConversation?
      && h.trace[3].call.AddMessageToConversation?
      && h.reply == Reply(200, Acknowledged(Some(clock.ackStamp), None))
  {
  }

  /** With no usable first location the webhook stops after listing locations and
      still acknowledges as a success. */
  lemma IncomingWithoutLocation(event: InboundEvent, clock: Clock, out: InboundOutcomes)
    requires IsMessageReceived(event.eventType) && event.from.Some?
    requires out.locations.Ok? && !Truthy(FirstLocationId(out.locations.value))
    ensures var h := HandleIncoming(event, clock, out);
      && h.trace == [Step(GetLocations, true)]
      && h.reply == Reply(200, Acknowledged(Some(clock.ackStamp), None))
  {
  }

  /** Every rejected CRM call is reported back, as the acknowledgement's `error` field:
      the first rejection in call order is the one reported. */
  lemma IncomingReportsFailure(event: InboundEvent, clock: Clock, out: InboundOutcomes)
    requires IsMessageReceived(event.eventType) && event.from.Some?
    ensures var d := HandleIncoming(event, clock, out).reply.body.diagnostic;
      && (out.locations.Err? ==> d == Some(out.locations.msg))
      && (out.locations.Ok? && Truthy(FirstLocationId(out.locations.value)) ==>
            && (out.contact.Err? ==> d == Some(out.contact.msg))
            && (out.contact.Ok? && out.conversation.Err? ==> d == Some(out.conversation.msg))
            && (out.contact.Ok? && out.conversation.Ok? && out.append.Err? ==> d == Some(out.append.msg)))
  {
  }

  // ---------------------------------------------------------------- delivery

  /** The body the provider posts to the delivery-receipt webhook. */
  datatype DeliveryReceipt = DeliveryReceipt(
    messageId: Option<string>, status: Option<string>, timestamp: Option<string>)

  /** The delivery-receipt webhook: a pass-through that acknowledges every receipt. */
  function HandleDelivery(receipt: DeliveryReceipt): (h: Handled)
    ensures h.reply.status == 200 && h.reply.body.Received()
    ensures h.reply.body.Error().None? && h.reply.body.timestamp.None?
    ensures h.trace == []
  {
    Handled(Reply(200, Acknowledged(None, None)), [])
  }

  /** The receipt's content never matters: every receipt gets the same acknowledgement. */
  lemma DeliveryIgnoresReceipt(r1: DeliveryReceipt, r2: DeliveryReceipt)
    ensures HandleDelivery(r1) == HandleDelivery(r2)
  {
  }

  // ---------------------------------------------------------------- relay send

  /** The body the CRM posts to the relay-send route. */
  datatype RelayRequest = RelayRequest(
    to: Option<string>,
    from: Option<string>,
    message: Option<string>,
    mediaUrl: Option<string>,
    locationId: Option<string>,
    contactId: Option<string>)

  /** The outcomes of the provider send and of the CRM log call. */
  datatype RelayOutcomes = RelayOutcomes(send: Outcome<SendReceipt>, append: Outcome<()>)

  const MissingFieldsError: string :=
    "Missing required fields: to, from, and message are required"

  predicate HasRequiredFields(req: RelayRequest) {
    Truthy(req.to) && Truthy(req.from) && Truthy(req.message)
  }

  /** The decimal rendering of a non-negative integer, as string interpolation prints it. */
  function Decimal(n: nat): (r: string)
    ensures |r| > 0 && PhoneNumber.AllDigits(r)
  {
    var digit := ['0' + (n % 10) as char];
    if n < 10 then digit else Decimal(n / 10) + digit
  }

  /** The number a digit string denotes in decimal. */
  function DecimalValue(s: string): nat
    requires PhoneNumber.AllDigits(s)
  {
    if |s| == 0 then 0
    else
      assert PhoneNumber.IsDigit(s[|s| - 1]);
      10 * DecimalValue(s[..|s| - 1]) + (s[|s| - 1] as int - '0' as int)
  }

  /** The rendering is faithful: reading it back in decimal gives the clock reading. */
  lemma {:induction false} DecimalRoundTrip(n: nat)
    ensures DecimalValue(Decimal(n)) == n
  {
    if n >= 10 {
      DecimalRoundTrip(n / 10);
      var r := Decimal(n);
      assert r[..|r| - 1] == Decimal(n / 10);
    }
  }

  /** `ghl_${contactId || 'unknown'}_${Date.now()}` for a clock reading in milliseconds. */
  function RelayReference(contactId: Option<string>, nowMillis: nat): string {
    "ghl_" + (if Truthy(contactId) then contactId.value else "unknown") + "_" + Decimal(nowMillis)
  }

  /** The provider call the relay route makes: MMS when a media URL is given, SMS otherwise. */
  function RelayProviderCall(req: RelayRequest, nowMillis: nat): Call {
    var reference := Some(RelayReference(req.contactId, nowMillis));
    if Truthy(req.mediaUrl) then SendMms(req.to, req.from, req.message, req.mediaUrl, reference)
    else SendSms(req.to, req.from, req.message, reference)
  }

  /** The relay-send route: validate, send through the provider, then log the
      message in the CRM as a best-effort step whose failure is swallowed. */
  function RelaySend(req: RelayRequest, nowMillis: nat, out: RelayOutcomes): (h: Handled)
    // a caller error makes no call at all
    ensures !HasRequiredFields(req) <==> h.reply.status == 400
    ensures !HasRequiredFields(req) ==> h.trace == [] && h.reply.body == Problem(MissingFieldsError)
    // otherwise exactly one provider call, first, chosen by the media URL
    ensures HasRequiredFields(req) ==>
      |h.trace| > 0 && ProviderCalls(h.trace) == 1 &&
      h.trace[0].call.IsProviderCall() && h.trace[0].succeeded == out.send.Ok? &&
      (h.trace[0].call.SendMms? <==> Truthy(req.mediaUrl)) &&
      (h.trace[0].call.SendSms? <==> !Truthy(req.mediaUrl)) &&
      h.trace[0].call.to == req.to && h.trace[0].call.from == req.from &&
      h.trace[0].call.body == req.message &&
      h.trace[0].call.reference == Some(RelayReference(req.contactId, nowMillis)) &&
      (h.trace[0].call.SendMms? ==> h.trace[0].call.mediaUrl == req.mediaUrl)
    // a provider failure is fatal and no CRM call follows
    ensures HasRequiredFields(req) && out.send.Err? ==>
      h.reply == Reply(500, SendFailed(out.send.msg)) && NoCrmCall(h.trace)
    // after a successful send the reply is a success whatever the CRM did
    ensures HasRequiredFields(req) && out.send.Ok? ==>
      h.reply == Reply(200, Sent(out.send.value.messageId, None))
    // the CRM log is attempted exactly when the send succeeded and both ids are present
    ensures !NoCrmCall(h.trace) <==>
      HasRequiredFields(req) && out.send.Ok? && Truthy(req.locationId) && Truthy(req.contactId)
    ensures !NoCrmCall(h.trace) ==>
      |h.trace| == 2 && h.trace[1].call ==
        AddMessageToConversation(req.contactId.value,
          OutboundLog(req.message, req.mediaUrl, out.send.value.messageId))
    ensures !NoCrmCall(h.trace) ==> h.trace[1].succeeded == out.append.Ok?
    // a success names the provider
    ensures h.reply.status == 200 ==> h.reply.body.Provider() == Some(ProviderName)
    ensures HaltsAtFailure(h.trace)
  {
    if !HasRequiredFields(req) then
      Handled(Reply(400, Problem(MissingFieldsError)), [])
    else
      var send := RelayProviderCall(req, nowMillis);
      match out.send
      case Err(m) => Handled(Reply(500, SendFailed(m)), [Step(send, false)])
      case Ok(receipt) =>
        var logged :=
          if Truthy(req.locationId) && Truthy(req.contactId) then
            var log := OutboundLog(req.message, req.mediaUrl, receipt.messageId);
            [Step(AddMessageToConversation(req.contactId.value, log), out.append.Ok?)]
          else [];
        var t := [Step(send, true)] + logged;
        ProviderCallsAppend([Step(send, true)], logged);
        Handled(Reply(200, Sent(receipt.messageId, None)), t)
  }
}

=== FILE: wrappers.dfy ===
/** Optional values and gateway outcomes shared by every module of the relay model. */
module Wrappers {

  /** A JSON field that may be absent (`undefined` or `null` in the request body). */
  datatype Option<+T> = None | Some(value: T)

  /** The outcome of one gateway call: the resolved value, or the message of the
      error the call rejected with. */
  datatype Outcome<+T> = Ok(value: T) | Err(msg: string)
}
